=== FILE: README.md ===
# K90 macro generator: a Dafny model

The program turns a line-oriented macro script (key presses, holds, releases,
delays) into the `GKEYINFO` descriptor a keyboard's macro profile reads. Its core
is modelled here as pure functions:

- **Event encoder** (`MacroItems`, `HexFormat`, `Payload`): the four macro
  events (`Delay`, `KeyDown`, `KeyUp`, `KeyPress`) and their lower-case hex
  opcodes, and `GetMacroInfo`. That function concatenates the opcodes in order
  and pads them with `000000` up to 1360 opcodes (8160 characters). It never
  truncates.
- **Key resolver** (`KeyResolver`, `Keys`): `StringToKey`. A single letter
  (either case) or digit maps into a contiguous range. Otherwise a fixed,
  case-sensitive alias table applies, then the platform enumeration. The
  platform lookup is a parameter. Key codes are the Windows virtual-key values
  (`A` = 0x41, `D0` = 0x30, `None` = 0).
- **Script compiler** (`Fields`, `Decimal`, `Compiler`, `Directives`): the
  line loop of `Process`, written as a fold of `Step` over the lines. The
  state is `(delay, macroName, haveDelay, events)`. Lines are split on the
  space character only, and the first field is dispatched case-sensitively.
  `Directives` states what each directive line and each bare key line
  does, for every state.
- **Descriptor** (`Descriptor`): the values of the written elements, in the
  order they are written.

The compiler is modelled as written. `Compiler.Dialect` picks which field the
`defaultdelay` / `default_delay` check parses. `AsWritten` parses the keyword
itself, as `Program.cs:120` does. `Intended` parses the argument; it is used
only for the corrected half of the finding below.

The program's behaviour differs from a natural reading of its directives in these places; the model follows the code:

- `defaultdelay N` never takes effect, so the default delay is 15 for the
  whole run.
- `name   ` sets the name to two spaces, not to `NewMacro`.
- Leading spaces shift the name's offset: `  name` sets the name to `e`.
- A bare `up` or `down` line is a malformed directive, not an arrow key.
- `defaultdelay 500` followed by `a` produces no leading `Delay`. `haveDelay`
  starts true and is not touched by the default-delay line.

## Model

| member | source | states |
|---|---|---|
| `HexFormat.Hex` | Program.cs:27 | `{0:xN}` output is non-empty and at least N long; it is never cut |
| `HexFormat.HexDigits` | Program.cs:27 | `{0:xN}` output consists of lower-case hex digits only |
| `HexFormat.HexLength` | Program.cs:57 | a value below 16^N is written with exactly N digits |
| `HexFormat.HexRoundTrip` | Program.cs:27 | reading the formatted digits back gives the value |
| `MacroItems.OpcodesAreHex` | Program.cs:24-78 | every event's opcode text consists of lower-case hex digits only |
| `MacroItems.DelayCode` | Program.cs:24-27 | `ff` followed by the milliseconds in at least four hex digits; its exact six-character shape is stated by `MacroItems.OpcodeShapes` |
| `MacroItems.KeyDownCode` | Program.cs:39-42 | the key in at least two hex digits followed by `0001`; shape stated by `MacroItems.OpcodeShapes` |
| `MacroItems.KeyUpCode` | Program.cs:54-57 | the key in at least two hex digits followed by `0000`; shape stated by `MacroItems.OpcodeShapes` |
| `MacroItems.HexCode` | Program.cs:24-77 | an event's opcode text has at least six characters for each primitive event it stands for |
| `MacroItems.Primitives` | Program.cs:72-77 | a press stands for primitive events only (down, delay, up) |
| `MacroItems.OpcodeShapes` | Program.cs:25-58 | for ms below 65536: delay is 6 chars starting `ff`, key-down 6 chars ending `0001`, key-up 6 chars ending `0000` |
| `MacroItems.KeyPressShape` | Program.cs:72-77 | a press's code is key-down ++ delay ++ key-up, 18 chars |
| `MacroItems.CodeLength` | Program.cs:72-77 | a well-formed event takes six characters per primitive event |
| `MacroItems.PressAExample` | Program.cs:72-77 | pressing A for 15 ms encodes as `410001ff000f410000` |
| `MacroItems.KeyDownFFIsDelay` | Program.cs:25-43 | key-down of key 0xff encodes exactly like a 1 ms delay |
| `MacroItems.DecodeOpcodeRoundTrip` | Program.cs:25-58 | every well-formed primitive decodes back from its six characters |
| `Payload.Concat` | Program.cs:241-244 | the opcode text is empty exactly when there are no events |
| `Payload.Pad` | Program.cs:245-246 | padding keeps the text as a prefix and appends whole `000000` units. The result reaches 8160 chars, overshoots by less than one unit, and leaves longer text untouched |
| `Payload.MacroInfo` | Program.cs:236-250 | the payload starts with the opcodes, everything after them is `0`, it is at least 8160 long, and longer opcode text is returned whole |
| `Payload.ConcatAppend` | Program.cs:241-244 | the opcodes of two event lists joined are the two opcode texts joined, in order |
| `Payload.ConcatLength` | Program.cs:241-244 | well-formed events give six characters per primitive event |
| `Payload.WholeOpcodes` | Program.cs:241-244 | well-formed events give a multiple of six characters |
| `Payload.PadToMax` | Program.cs:238 | a multiple of six that fits is padded to exactly 8160 |
| `Payload.FullSizeWhenFits` | Program.cs:245-246 | well-formed events that fit give a payload of exactly 8160 chars |
| `Payload.SizeWarning` | Program.cs:245-248 | the condition of the size warning: the padded text is longer than 8160; `Payload.SizeWarningIff` states when it holds |
| `Payload.SizeWarningIff` | Program.cs:247-248 | for well-formed events the size warning fires iff the opcodes exceed 8160 chars |
| `Payload.EmptyPayload` | Program.cs:236-246 | no events give 8160 zeros |
| `Payload.DecodeConcat` | Program.cs:241-244 | the opcode text of well-formed events decodes back to their primitive events, in order |
| `Decimal.ParseInt` | Program.cs:109 | parsing succeeds exactly on non-empty digit strings whose value fits a 32-bit signed integer, and then gives at most 2147483647 |
| `Decimal.LeadingZero` | Program.cs:109 | a leading zero does not change what a digit string parses to |
| `Decimal.ZeroPadded` | Program.cs:109 | a number padded with any number of zeros parses to the number, when it fits 32 bits |
| `Decimal.ToDecimal` | Program.cs:224 | `ToString` gives a non-empty digit string without a leading zero |
| `Decimal.DecimalRoundTrip` | Program.cs:109 | a number written in decimal parses back to itself when it fits 32 bits and does not parse otherwise |
| `KeyResolver.Alias` | Program.cs:267-372 | every spelling in the table names a real key, never `None` |
| `KeyResolver.StringToKey` | Program.cs:252-385 | `None` comes back only when the platform lookup also fails or itself yields `None` |
| `KeyResolver.LettersCaseInsensitive` | Program.cs:254-262 | the i-th letter maps to `A + i` in both cases, from `A` to `Z` |
| `KeyResolver.DigitsContiguous` | Program.cs:263-264 | the i-th digit maps to `D0 + i`, from `D0` to `D9`, below the letter codes |
| `KeyResolver.AliasesResolve` | Program.cs:267-372 | an alias never maps to `None` and never consults the platform lookup |
| `KeyResolver.UnresolvedIff` | Program.cs:252-384 | `None` comes back iff the name is no letter, digit or alias and the platform lookup fails or yields `None` |
| `KeyResolver.EnumResolves` | Program.cs:374-383 | a name that is no letter, digit or alias resolves to exactly the key the platform lookup gives |
| `KeyResolver.AliasSamples` | Program.cs:308-366 | `space`/`spc`/`spacebar` map to Space, `altgr` to RMenu, `~`/`tilde` to Oemtilde, `up`/`down` to the arrows |
| `Fields.Word` | Program.cs:100 | a word is the longest space-free prefix |
| `Fields.Split` | Program.cs:100 | every field is non-empty and free of spaces |
| `Fields.SplitJoin` | Program.cs:100 | splitting the single-space join of fields gives the fields back |
| `Fields.WordOfJoined` | Program.cs:100 | a field followed by a space or the end is read as one word |
| `Fields.ExtraSpaces` | Program.cs:100 | a leading space does not change the fields |
| `Fields.FirstFieldFits` | Program.cs:100 | the first field is no longer than the line and equals it only if the line is that field |
| `Compiler.NameField` | Program.cs:135-141 | the name is non-empty; for `name ` + rest it is rest, or `NewMacro` when rest is empty |
| `Compiler.MsOr` | Program.cs:109-110 | the duration is the parsed argument, or the current default exactly when the argument does not parse |
| `Compiler.Emit` | Program.cs:162-165 | appends the event after a delay of the current default when no delay separates it from the last key event; `Compiler.EmitPaysOwedDelay` states it on paced states |
| `Compiler.Step` | Program.cs:98-221 | a line appends at most two events and keeps the earlier ones. Only a name line renames; only a default-delay line read as intended changes the delay |
| `Compiler.Run` | Program.cs:98-222 | events are only appended, never changed or removed |
| `Compiler.Compile` | Program.cs:90-222 | no event holds `None`. The delay stays in 1..999 and is 15 as written. The name is the one the name lines set |
| `Compiler.StepKeepsDelayAsWritten` | Program.cs:116-126 | as written, no line changes the default delay |
| `Compiler.DelayNeverChanges` | Program.cs:120-125 | as written, any number of lines keep the default delay |
| `Compiler.DelayStaysInRange` | Program.cs:120-125 | in either dialect the default delay stays within 1..999 |
| `Compiler.NoUnresolvedKeys` | Program.cs:155-157 | lines never add a key event for `None` |
| `Compiler.StepPaced` | Program.cs:162-165 | except for `nodelay`, a line keeps key events apart and keeps the owed-delay flag in step with the last event |
| `Compiler.RunPaced` | Program.cs:182-185 | without `nodelay` lines the pacing invariant holds after any number of lines |
| `Compiler.EmitPaysOwedDelay` | Program.cs:162-165 | on a paced state, a delay of the current default precedes the event exactly when the last event is a key event; otherwise the event alone is appended |
| `Compiler.StepPaysOwedDelay` | Program.cs:155-218 | on a paced state, a line that ends the events with a key event appends that event alone, preceded by `Delay(delay)` exactly when a delay is owed |
| `Compiler.CompiledSpaced` | Program.cs:95 | starting with no delay owed, a compiled script without `nodelay` never has two adjacent key events |
| `Compiler.RejectedLines` | Program.cs:120-124 | wrong field counts, unresolved keys and (as written) every default-delay line leave the state unchanged |
| `Compiler.RunName` | Program.cs:135-141 | the final name is set by the name lines alone |
| `Directives.StepDelay` | Program.cs:106-113 | `delay N` appends `Delay(N)` and cancels the owed delay, for every state; a number past 32 bits gives the default instead |
| `Directives.StepDelayFallback` | Program.cs:106-113 | a `delay` line without exactly one argument, or whose argument does not parse, appends a delay of the current default |
| `Directives.StepPressFor` | Program.cs:143-166 | `press k N` and `keypress k N` emit a press of k lasting N ms, after the owed delay if any |
| `Directives.StepPressDefault` | Program.cs:143-166 | `press k` and `keypress k` emit a press of k lasting the current default |
| `Directives.StepPressFallback` | Program.cs:159-160 | a press line with a key and no duration that parses presses for the current default |
| `Directives.StepDown` | Program.cs:169-186 | `down k` and `keydown k` emit a key-down of k through the owed-delay rule |
| `Directives.StepUp` | Program.cs:189-206 | `up k` and `keyup k` emit a key-up of k through the owed-delay rule |
| `Directives.StepBlank` | Program.cs:100-102 | a line with no fields changes nothing |
| `Directives.StepName` | Program.cs:135-141 | a name line sets the name and changes nothing else |
| `Directives.StepNoDelay` | Program.cs:129-133 | any line whose first field is `nodelay`, whatever follows, only cancels the owed delay |
| `Directives.StepBareKey` | Program.cs:209-219 | a line holding a single key name that is no directive presses that key for the current default, after the owed delay if any |
| `Directives.RunLastsDefault` | Program.cs:106-218 | as written, lines that give no duration of their own keep every delay and press at the state's default |
| `Directives.CompiledLastsDefault` | Program.cs:90-218 | as written, a script in which no line gives its own duration delays and presses for 15 ms throughout |
| `CompilerExamples.FirstKeyHasNoLeadingDelay` | Program.cs:209-219 | `a` alone compiles to a 15 ms press of A with no leading delay |
| `CompilerExamples.DownUpGetsImplicitDelay` | Program.cs:169-206 | for any resolvable key name k, `down k`, `up k` compile to key down, the default delay, key up |
| `CompilerExamples.NoDelaySuppresses` | Program.cs:129-133 | for any resolvable key name k, `nodelay` between `down k` and `up k` removes the implicit delay |
| `CompilerExamples.BareUpIsMalformed` | Program.cs:189-196 | a bare `up` changes nothing, although `up` names the arrow key |
| `CompilerExamples.NameKeepsSpaces` | Program.cs:137-139 | `name   ` sets the name to two spaces |
| `CompilerExamples.NameOffsetShifts` | Program.cs:137 | `  name` sets the name to `e` |
| `CompilerExamples.ExtraFieldsIgnored` | Program.cs:209-213 | a bare-key line acts on its first field only |
| `CompilerExamples.DefaultDelayIgnoredAsWritten` | Program.cs:116-126 | as written, `defaultdelay 500`, `a` keeps delay 15 and presses for 15 ms |
| `CompilerExamples.DefaultDelayTakesEffect` | Program.cs:116-126 | reading the argument, `defaultdelay N` sets the delay to N iff 1 <= N <= 999, and changes nothing otherwise |
| `CompilerExamples.DefaultDelayScriptIntended` | Program.cs:116-126 | reading the argument, `defaultdelay 500`, `a` presses for 500 ms |
| `Descriptor.Process` | Program.cs:82-233 | the constant fields are `LaverGKey`, `0`, `48`, `1`, `2`, empty, `1` and `1000`; both delay fields hold the compiled delay in decimal; the name field holds the compiled name; the payload is `GetMacroInfo` of the compiled events, so it starts with their opcodes, is at least 8160 long and ends in zeros |
| `Descriptor.ReportedDelayAsWritten` | Program.cs:224-226 | as written, `DefaultDelayTime` and `FixMacroDelay` are always `15` |

## Left out

- `Main`: argument handling, file enumeration, `Path.ChangeExtension`, file I/O and its exception handling. These are I/O around the core.
- XML writing: `Descriptor.GKeyInfo` holds the element values in write order. The serialisation itself is a library call.
- Diagnostics on the error stream: they do not affect any result. `Payload.SizeWarning` is the condition for the size warning only.
- The platform enumeration lookup (`Enum.Parse`): it is a reflection call, so it is the `parseEnum` parameter, returning an optional key code in 0..255. Real results can exceed a byte (e.g. modifier flags). It also accepts numeric strings and comma lists.
- `Decimal.ParseInt`: rejects the sign and the surrounding white space that `int.TryParse` accepts. So `delay -5` gives a delay of the current default in the model, where the program emits a negative delay (whose `{0:x4}` text is eight digits). The model's durations are therefore never negative. Values from 65536 up to 2147483647 parse in both and format wider than four digits in both.
- The bare line `name`, which throws in the program: every compiler function requires `Handled` of its lines.
- `MacroItems.OpcodeShapes`: states the six-character shape only for ms below 65536. Above that, the model (like `{0:x4}`) writes more digits.
- `Payload.DecodeConcat`: holds only for key codes below 0xff, because key-down of 0xff reads as a 1 ms delay (`MacroItems.KeyDownFFIsDelay`).

## Findings

| source | as written | input that shows it | evidently intended | confidence | as-written member | corrected member |
|---|---|---|---|---|---|---|
| Program.cs:120 | `int.TryParse(parts[0], ...)` parses the directive keyword, which never parses, so every default-delay line is rejected | the script `defaultdelay 500`, `a` leaves the delay at 15 and presses A for 15 ms | parse `parts[1]` and set the delay when it is in 1..999 | high; not executed | `CompilerExamples.DefaultDelayIgnoredAsWritten` | `CompilerExamples.DefaultDelayTakesEffect` |

=== FILE: compiler.dfy ===
/**
 The script compiler: the per-line loop of `Process` as a fold of a pure step
 function over the lines. The state is the current default delay, the macro
 name, whether a delay already separates the next key event from the previous
 one (`haveDelay`), and the events emitted so far.
 */
module Compiler {
  import opened Options
  import Keys
  import opened Decimal
  import opened MacroItems
  import opened KeyResolver
  import opened Fields

  /** Which field the default-delay directive parses: the keyword itself, as
      the program does, or the argument, as evidently intended. */
  datatype Dialect = AsWritten | Intended

  const DefaultName: string := "NewMacro"
  const InitialDelay: nat := 15

  datatype State = State(delay: nat, macroName: string, haveDelay: bool, events: seq<MacroItem>)

  const Start: State := State(InitialDelay, DefaultName, true, [])

  /** The bare line `name` makes the program throw; every other line is handled. */
  predicate Handled(line: string) {
    line != "name"
  }

  predicate AllHandled(lines: seq<string>) {
    forall i :: 0 <= i < |lines| ==> Handled(lines[i])
  }

  /** The keywords the compiler reads as directives; any other first field
      names a key to press. */
  predicate IsDirective(cmd: string) {
    cmd in {"delay", "defaultdelay", "default_delay", "nodelay", "name",
            "press", "keypress", "down", "keydown", "up", "keyup"}
  }

  predicate IsNameLine(line: string) {
    Split(line) != [] && Split(line)[0] == "name"
  }

  /** The macro name a `name` line sets: the line from one past the length of
      the keyword on, which is the rest after `name ` when the line starts with it. */
  function NameField(line: string): (r: string)
    requires IsNameLine(line) && Handled(line)
    ensures r != []
    ensures forall rest :: line == "name " + rest ==> r == (if rest == "" then DefaultName else rest)
  {
    FirstFieldFits(line);
    var rest := line[|"name"| + 1..];
    if rest == "" then DefaultName else rest
  }

  /** Appends `item`, preceded by a delay of the current default length when
      nothing separates it from the previous key event. */
  function Emit(st: State, item: MacroItem): (r: State)
  {
    var pause := if st.haveDelay then [] else [Delay(st.delay)];
    st.(events := st.events + pause + [item], haveDelay := false)
  }

  /** The milliseconds argument, or the current default when it does not parse. */
  function MsOr(arg: string, default: nat): (ms: nat)
    ensures ParseInt(arg) == Some(ms) || (ParseInt(arg) == None && ms == default)
  {
    ParseInt(arg).GetOr(default)
  }

  predicate IsDefaultDelayLine(line: string) {
    Split(line) != [] && Split(line)[0] in {"defaultdelay", "default_delay"}
  }

  /** One line of the script. At most a delay and one event are appended;
      only a name line renames the macro and only a default-delay line, read
      as intended, changes the default delay. */
  function Step(st: State, line: string, dialect: Dialect, parseEnum: string -> Option<Keys.KeyCode>): (r: State)
    requires Handled(line)
    ensures |st.events| <= |r.events| <= |st.events| + 2 && r.events[..|st.events|] == st.events
    ensures r.macroName != st.macroName ==> IsNameLine(line)
    ensures r.delay != st.delay ==> dialect == Intended && IsDefaultDelayLine(line)
  {
    var parts := Split(line);
    if parts == [] then st
    else
      var cmd := parts[0];
      if cmd == "delay" then
        var ms := if |parts| != 2 then st.delay else MsOr(parts[1], st.delay);
        st.(haveDelay := true, events := st.events + [Delay(ms)])
      else if cmd == "defaultdelay" || cmd == "default_delay" then
        if |parts| != 2 then st
        else
          assert !IsDigit(parts[0][0]) && !AllDigits(parts[0]);
          var arg := if dialect == AsWritten then parts[0] else parts[1];
          match ParseInt(arg)
          case Some(ms) =>
            assert dialect == Intended;
            assert IsDefaultDelayLine(line);
            if 1 <= ms <= 999 then st.(delay := ms) else st
          case None => st
      else if cmd == "nodelay" then st.(haveDelay := true)
      else if cmd == "name" then st.(macroName := NameField(line))
      else if cmd == "press" || cmd == "keypress" then
        if |parts| <= 1 || |parts| > 3 then st
        else
          var key := StringToKey(parts[1], parseEnum);
          if key == Keys.None then st
          else
            var ms := if |parts| != 3 then st.delay else MsOr(parts[2], st.delay);
            Emit(st, KeyPress(key, ms))
      else if cmd == "down" || cmd == "keydown" then
        if |parts| != 2 then st
        else
          var key := StringToKey(parts[1], parseEnum);
          if key == Keys.None then st else Emit(st, KeyDown(key))
      else if cmd == "up" || cmd == "keyup" then
        if |parts| != 2 then st
        else
          var key := StringToKey(parts[1], parseEnum);
          if key == Keys.None then st else Emit(st, KeyUp(key))
      else
        var key := StringToKey(cmd, parseEnum);
        if key == Keys.None then st else Emit(st, KeyPress(key, st.delay))
  }

  /** The lines applied in order; events are only ever appended. */
  function Run(st: State, lines: seq<string>, dialect: Dialect, parseEnum: string -> Option<Keys.KeyCode>): (r: State)
    requires AllHandled(lines)
    ensures |st.events| <= |r.events| && r.events[..|st.events|] == st.events
    decreases |lines|
  {
    if lines == [] then st
    else
      var next := Step(st, lines[0], dialect, parseEnum);
      var r := Run(next, lines[1..], dialect, parseEnum);
      assert r.events[..|st.events|] == r.events[..|next.events|][..|st.events|];
      r
  }

  /** A whole script compiled from the initial state: no event names `None`,
      the default delay stays in 1..999 (at 15 as written), and the name is
      the one the last name line sets. */
  function Compile(lines: seq<string>, dialect: Dialect, parseEnum: string -> Option<Keys.KeyCode>): (r: State)
    requires AllHandled(lines)
    ensures KeysResolved(r.events)
    ensures 1 <= r.delay <= 999
    ensures dialect == AsWritten ==> r.delay == InitialDelay
    ensures r.macroName == NameAfter(DefaultName, lines)
  {
    NoUnresolvedKeys(Start, lines, dialect, parseEnum);
    DelayStaysInRange(Start, lines, dialect, parseEnum);
    DelayNeverChanges(Start, lines, parseEnum);
    RunName(Start, lines, dialect, parseEnum);
    Run(Start, lines, dialect, parseEnum)
  }

  // Properties of the default delay

  /** As written, the default-delay directive parses its own keyword, which is
      never a number, so no line changes the default delay. */
  lemma StepKeepsDelayAsWritten(st: State, line: string, parseEnum: string -> Option<Keys.KeyCode>)
    requires Handled(line)
    ensures Step(st, line, AsWritten, parseEnum).delay == st.delay
  {
    var parts := Split(line);
    if parts != [] && (parts[0] == "defaultdelay" || parts[0] == "default_delay") && |parts| == 2 {
      assert !IsDigit(parts[0][0]);
    }
  }

  lemma {:induction false} DelayNeverChanges(st: State, lines: seq<string>, parseEnum: string -> Option<Keys.KeyCode>)
    requires AllHandled(lines)
    ensures Run(st, lines, AsWritten, parseEnum).delay == st.delay
    decreases |lines|
  {
    if lines != [] {
      StepKeepsDelayAsWritten(st, lines[0], parseEnum);
      DelayNeverChanges(Step(st, lines[0], AsWritten, parseEnum), lines[1..], parseEnum);
    }
  }

  predicate DelayInRange(st: State) {
    1 <= st.delay <= 999
  }

  /** In either dialect the default delay stays within 1..999. */
  lemma {:induction false} DelayStaysInRange(st: State, lines: seq<string>, dialect: Dialect,
                                             parseEnum: string -> Option<Keys.KeyCode>)
    requires AllHandled(lines) && DelayInRange(st)
    ensures DelayInRange(Run(st, lines, dialect, parseEnum))
    decreases |lines|
  {
    if lines != [] {
      DelayStaysInRange(Step(st, lines[0], dialect, parseEnum), lines[1..], dialect, parseEnum);
    }
  }

  // Properties of the event sequence

  predicate KeysResolved(events: seq<MacroItem>) {
    forall i :: 0 <= i < |events| && IsKeyEvent(events[i]) ==> events[i].key != Keys.None
  }

  /** `None` never reaches the event list. */
  lemma {:induction false} NoUnresolvedKeys(st: State, lines: seq<string>, dialect: Dialect,
                                            parseEnum: string -> Option<Keys.KeyCode>)
    requires AllHandled(lines) && KeysResolved(st.events)
    ensures KeysResolved(Run(st, lines, dialect, parseEnum).events)
    decreases |lines|
  {
    if lines != [] {
      NoUnresolvedKeys(Step(st, lines[0], dialect, parseEnum), lines[1..], dialect, parseEnum);
    }
  }

  predicate IsNoDelayLine(line: string) {
    Split(line) != [] && Split(line)[0] == "nodelay"
  }

  /** No two key events are next to each other. */
  predicate Spaced(events: seq<MacroItem>) {
    forall i :: 0 <= i < |events| - 1 ==> !(IsKeyEvent(events[i]) && IsKeyEvent(events[i + 1]))
  }

  /** The pacing flag agrees with the events: a delay is owed exactly after a
      key event, and is not owed after a delay or at the start. */
  predicate Paced(st: State) {
    && Spaced(st.events)
    && (!st.haveDelay ==> st.events != [] && IsKeyEvent(st.events[|st.events| - 1]))
    && (st.haveDelay ==> st.events == [] || !IsKeyEvent(st.events[|st.events| - 1]))
  }

  /** A delay is owed: the last event is a key event. */
  predicate Owed(events: seq<MacroItem>) {
    events != [] && IsKeyEvent(events[|events| - 1])
  }

  /** On a paced state, `Emit` puts a delay of the current default before the
      event exactly when one is owed, and nothing else. */
  lemma EmitPaysOwedDelay(st: State, item: MacroItem)
    requires Paced(st)
    ensures Emit(st, item).events
         == st.events + (if Owed(st.events) then [Delay(st.delay), item] else [item])
  {
  }

  /** On a paced state, a line that ends the events with a key event appends
      that event alone, preceded by a delay of the current default exactly
      when one is owed. */
  lemma StepPaysOwedDelay(st: State, line: string, dialect: Dialect, parseEnum: string -> Option<Keys.KeyCode>)
    requires Handled(line) && Paced(st)
    ensures var r := Step(st, line, dialect, parseEnum);
      |r.events| > |st.events| && IsKeyEvent(r.events[|r.events| - 1]) ==>
        r.events == st.events + (if Owed(st.events) then [Delay(st.delay)] else []) + [r.events[|r.events| - 1]]
  {
    forall item: MacroItem
      ensures Emit(st, item).events
           == st.events + (if Owed(st.events) then [Delay(st.delay)] else []) + [item]
    {
      EmitPaysOwedDelay(st, item);
    }
  }

  lemma StepPaced(st: State, line: string, dialect: Dialect, parseEnum: string -> Option<Keys.KeyCode>)
    requires Handled(line) && !IsNoDelayLine(line) && Paced(st)
    ensures Paced(Step(st, line, dialect, parseEnum))
  {
    var r := Step(st, line, dialect, parseEnum);
    var n := |st.events|;
    if r.events != st.events {
      assert r.events[..n] == st.events;
      forall i | 0 <= i < |r.events| - 1
        ensures !(IsKeyEvent(r.events[i]) && IsKeyEvent(r.events[i + 1]))
      {
        if i < n - 1 {
          assert r.events[i] == st.events[i] && r.events[i + 1] == st.events[i + 1];
        } else if i == n - 1 {
          assert r.events[i] == st.events[n - 1];
        }
      }
    }
  }

  /** Without `nodelay` lines, the compiler separates every two key events by a
      delay: the implicit delay is inserted exactly when one is owed. */
  lemma {:induction false} RunPaced(st: State, lines: seq<string>, dialect: Dialect,
                                    parseEnum: string -> Option<Keys.KeyCode>)
    requires AllHandled(lines) && Paced(st)
    requires forall i :: 0 <= i < |lines| ==> !IsNoDelayLine(lines[i])
    ensures Paced(Run(st, lines, dialect, parseEnum))
    decreases |lines|
  {
    if lines != [] {
      StepPaced(st, lines[0], dialect, parseEnum);
      RunPaced(Step(st, lines[0], dialect, parseEnum), lines[1..], dialect, parseEnum);
    }
  }

  lemma CompiledSpaced(lines: seq<string>, dialect: Dialect, parseEnum: string -> Option<Keys.KeyCode>)
    requires AllHandled(lines)
    requires forall i :: 0 <= i < |lines| ==> !IsNoDelayLine(lines[i])
    ensures Spaced(Compile(lines, dialect, parseEnum).events)
  {
    RunPaced(Start, lines, dialect, parseEnum);
  }

  // Lines that change nothing

  /** Malformed directives and unresolved keys leave the whole state unchanged;
      so does every default-delay line as written. */
  lemma RejectedLines(st: State, line: string, dialect: Dialect, parseEnum: string -> Option<Keys.KeyCode>)
    requires Handled(line) && Split(line) != []
    ensures var parts, cmd := Split(line), Split(line)[0];
      && ((cmd == "press" || cmd == "keypress") && (|parts| < 2 || |parts| > 3)
          ==> Step(st, line, dialect, parseEnum) == st)
      && ((cmd == "down" || cmd == "keydown" || cmd == "up" || cmd == "keyup") && |parts| != 2
          ==> Step(st, line, dialect, parseEnum) == st)
      && (cmd in {"press", "keypress", "down", "keydown", "up", "keyup"} && |parts| >= 2
          && StringToKey(parts[1], parseEnum) == Keys.None
          ==> Step(st, line, dialect, parseEnum) == st)
      && (!IsDirective(cmd) && StringToKey(cmd, parseEnum) == Keys.None
          ==> Step(st, line, dialect, parseEnum) == st)
      && ((cmd == "defaultdelay" || cmd == "default_delay") ==> Step(st, line, AsWritten, parseEnum) == st)
  {
    var parts := Split(line);
    if |parts| == 2 && (parts[0] == "defaultdelay" || parts[0] == "default_delay") {
      assert !IsDigit(parts[0][0]);
    }
  }

  // The macro name

  /** The name after `lines`: set by each name line, untouched by every other line. */
  function NameAfter(name: string, lines: seq<string>): string
    requires AllHandled(lines)
    decreases |lines|
  {
    if lines == [] then name
    else NameAfter(if IsNameLine(lines[0]) then NameField(lines[0]) else name, lines[1..])
  }

  lemma {:induction false} RunName(st: State, lines: seq<string>, dialect: Dialect,
                                   parseEnum: string -> Option<Keys.KeyCode>)
    requires AllHandled(lines)
    ensures Run(st, lines, dialect, parseEnum).macroName == NameAfter(st.macroName, lines)
    decreases |lines|
  {
    if lines != [] {
      RunName(Step(st, lines[0], dialect, parseEnum), lines[1..], dialect, parseEnum);
    }
  }
}

=== FILE: compiler_examples.dfy ===
/**
 Concrete scripts and single lines whose outcome shows a particular rule of the
 compiler, including the behaviour of the default-delay directive as written
 and as intended.
 */
module CompilerExamples {
  import opened Options
  import Keys
  import opened Decimal
  import opened MacroItems
  import opened KeyResolver
  import opened Fields
  import opened Compiler
  import opened Directives

  /** The first key command of a script gets no leading delay. */
  lemma FirstKeyHasNoLeadingDelay(parseEnum: string -> Option<Keys.KeyCode>)
    ensures Compile(["a"], AsWritten, parseEnum).events == [KeyPress(Keys.A, 15)]
  {
    SplitOf(["a"], "a");
  }

  /** A delay is owed after a key event and paid before the next one: holding
      and releasing any key puts the default delay between the two. */
  lemma DownUpGetsImplicitDelay(k: string, dialect: Dialect, parseEnum: string -> Option<Keys.KeyCode>)
    requires IsKeyName(k, parseEnum)
    ensures AllHandled(["down " + k, "up " + k])
    ensures var key := StringToKey(k, parseEnum);
      Compile(["down " + k, "up " + k], dialect, parseEnum).events
         == [KeyDown(key), Delay(InitialDelay), KeyUp(key)]
  {
    var key := StringToKey(k, parseEnum);
    var lines := ["down " + k, "up " + k];
    assert "down" + " " + k == "down " + k && "up" + " " + k == "up " + k;
    StepDown(Start, "down", k, dialect, parseEnum);
    StepUp(Emit(Start, KeyDown(key)), "up", k, dialect, parseEnum);
    RunCons(Start, lines, dialect, parseEnum);
    var s1 := Emit(Start, KeyDown(key));
    assert lines[1..] == ["up " + k];
    RunCons(s1, ["up " + k], dialect, parseEnum);
    assert s1.events == [KeyDown(key)] && !s1.haveDelay && s1.delay == InitialDelay;
    var s2 := Emit(s1, KeyUp(key));
    assert s2.events == [KeyDown(key)] + [Delay(InitialDelay)] + [KeyUp(key)];
    assert ["up " + k][1..] == [];
    assert Compile(lines, dialect, parseEnum) == Run(s2, [], dialect, parseEnum);
  }

  /** A three-line script is three steps. */
  lemma RunThree(st: State, l1: string, l2: string, l3: string, dialect: Dialect,
                 parseEnum: string -> Option<Keys.KeyCode>)
    requires Handled(l1) && Handled(l2) && Handled(l3)
    ensures AllHandled([l1, l2, l3])
    ensures Run(st, [l1, l2, l3], dialect, parseEnum)
         == Step(Step(Step(st, l1, dialect, parseEnum), l2, dialect, parseEnum), l3, dialect, parseEnum)
  {
    var lines := [l1, l2, l3];
    var s1 := Step(st, l1, dialect, parseEnum);
    var s2 := Step(s1, l2, dialect, parseEnum);
    RunCons(st, lines, dialect, parseEnum);
    assert lines[1..] == [l2, l3];
    RunCons(s1, [l2, l3], dialect, parseEnum);
    assert [l2, l3][1..] == [l3];
    RunCons(s2, [l3], dialect, parseEnum);
    assert [l3][1..] == [];
  }

  /** `nodelay` cancels the owed delay. */
  lemma NoDelaySuppresses(k: string, dialect: Dialect, parseEnum: string -> Option<Keys.KeyCode>)
    requires IsKeyName(k, parseEnum)
    ensures AllHandled(["down " + k, "nodelay", "up " + k])
    ensures var key := StringToKey(k, parseEnum);
      Compile(["down " + k, "nodelay", "up " + k], dialect, parseEnum).events
         == [KeyDown(key), KeyUp(key)]
  {
    var key := StringToKey(k, parseEnum);
    assert "down" + " " + k == "down " + k && "up" + " " + k == "up " + k;
    StepDown(Start, "down", k, dialect, parseEnum);
    var s1 := Emit(Start, KeyDown(key));
    SplitOf(["nodelay"], "nodelay");
    StepNoDelay(s1, "nodelay", dialect, parseEnum);
    var s2 := s1.(haveDelay := true);
    StepUp(s2, "up", k, dialect, parseEnum);
    RunThree(Start, "down " + k, "nodelay", "up " + k, dialect, parseEnum);
    assert Emit(s2, KeyUp(key)).events == [KeyDown(key)] + [KeyUp(key)];
  }

  /** A bare `up` is a malformed directive, not the arrow key it also names. */
  lemma BareUpIsMalformed(st: State, parseEnum: string -> Option<Keys.KeyCode>)
    ensures StringToKey("up", parseEnum) == Keys.Up
    ensures Step(st, "up", AsWritten, parseEnum) == st
  {
    SplitOf(["up"], "up");
  }

  /** The name is the raw rest of the line: trailing spaces are kept. */
  lemma NameKeepsSpaces(st: State, parseEnum: string -> Option<Keys.KeyCode>)
    ensures Step(st, "name   ", AsWritten, parseEnum).macroName == "  "
  {
    var line := "name   ";
    assert "name" + "   " == line;
    WordOfJoined("name", "   ");
    assert line[4..] == "   " && "   "[1..] == "  " && "  "[1..] == " " && " "[1..] == "";
    assert Split("   ") == [];
    assert Split(line) == ["name"];
    assert line[5..] == "  ";
  }

  /** The offset of the name ignores leading spaces, so they shift it. */
  lemma NameOffsetShifts(st: State, parseEnum: string -> Option<Keys.KeyCode>)
    ensures Step(st, "  name", AsWritten, parseEnum).macroName == "e"
  {
    assert Split("  name") == ["name"] by {
      assert "  name"[1..] == " name";
      assert " name"[1..] == "name";
      SplitOf(["name"], "name");
    }
  }

  /** A line that starts with a key name acts on its first field alone: any
      further fields are ignored. */
  lemma ExtraFieldsIgnored(st: State, line: string, dialect: Dialect, parseEnum: string -> Option<Keys.KeyCode>)
    requires Handled(line) && Split(line) != [] && !IsDirective(Split(line)[0])
    ensures Handled(Split(line)[0])
    ensures Step(st, line, dialect, parseEnum) == Step(st, Split(line)[0], dialect, parseEnum)
  {
    var w := Split(line)[0];
    SplitOf([w], w);
  }

  // The default-delay directive

  /** A bare `a` presses A for the current default delay. */
  lemma StepBareA(st: State, dialect: Dialect, parseEnum: string -> Option<Keys.KeyCode>)
    ensures Step(st, "a", dialect, parseEnum) == Emit(st, KeyPress(Keys.A, st.delay))
  {
    SplitOf(["a"], "a");
  }

  lemma DefaultDelay500AsWritten(st: State, parseEnum: string -> Option<Keys.KeyCode>)
    ensures Step(st, "defaultdelay 500", AsWritten, parseEnum) == st
  {
    SplitOf(["defaultdelay", "500"], "defaultdelay 500");
    assert !IsDigit("defaultdelay"[0]);
  }

  /** As written: `defaultdelay 500` is rejected, so the press that follows
      lasts the initial 15 ms and the reported default stays 15. */
  lemma DefaultDelayIgnoredAsWritten(parseEnum: string -> Option<Keys.KeyCode>)
    ensures var r := Compile(["defaultdelay 500", "a"], AsWritten, parseEnum);
      r.delay == 15 && r.events == [KeyPress(Keys.A, 15)]
  {
    var lines := ["defaultdelay 500", "a"];
    RunCons(Start, lines, AsWritten, parseEnum);
    DefaultDelay500AsWritten(Start, parseEnum);
    StepBareA(Start, AsWritten, parseEnum);
    var s2 := Emit(Start, KeyPress(Keys.A, 15));
    assert lines[1..] == ["a"] && lines[1..][1..] == [];
    assert Compile(lines, AsWritten, parseEnum) == Run(s2, [], AsWritten, parseEnum);
  }

  /** As intended: the argument is parsed, a value in 1..999 becomes the
      default and anything else is rejected. */
  lemma {:induction false} DefaultDelayTakesEffect(st: State, ms: nat, parseEnum: string -> Option<Keys.KeyCode>)
    ensures Handled("defaultdelay " + ToDecimal(ms))
    ensures Step(st, "defaultdelay " + ToDecimal(ms), Intended, parseEnum)
         == if 1 <= ms <= 999 then st.(delay := ms) else st
  {
    var arg := ToDecimal(ms);
    DigitsHaveNoSpace(ms);
    SplitOf(["defaultdelay", arg], "defaultdelay " + arg);
    DecimalRoundTrip(ms);
  }

  lemma DefaultDelay500Intended(st: State, parseEnum: string -> Option<Keys.KeyCode>)
    ensures Step(st, "defaultdelay 500", Intended, parseEnum) == st.(delay := 500)
  {
    DefaultDelayTakesEffect(st, 500, parseEnum);
    assert ToDecimal(5) == "5";
    assert ToDecimal(50) == "5" + "0";
    assert ToDecimal(500) == "50" + "0";
    assert "defaultdelay " + ToDecimal(500) == "defaultdelay 500";
  }

  /** As intended, the same script presses for 500 ms. */
  lemma DefaultDelayScriptIntended(parseEnum: string -> Option<Keys.KeyCode>)
    ensures var r := Compile(["defaultdelay 500", "a"], Intended, parseEnum);
      r.delay == 500 && r.events == [KeyPress(Keys.A, 500)]
  {
    var lines := ["defaultdelay 500", "a"];
    RunCons(Start, lines, Intended, parseEnum);
    DefaultDelay500Intended(Start, parseEnum);
    var s1 := Start.(delay := 500);
    StepBareA(s1, Intended, parseEnum);
    var s2 := Emit(s1, KeyPress(Keys.A, 500));
    assert lines[1..] == ["a"] && lines[1..][1..] == [];
    assert Compile(lines, Intended, parseEnum) == Run(s2, [], Intended, parseEnum);
  }
}

=== FILE: decimal.dfy ===
/**
 Decimal numbers as text: `int.TryParse` on an unsigned run of ASCII digits,
 which fails past the largest 32-bit signed value, and `int.ToString` for
 non-negative values.
 */
module Decimal {
  import opened Options

  predicate IsDigit(c: char) {
    '0' <= c <= '9'
  }

  predicate AllDigits(s: string) {
    forall i :: 0 <= i < |s| ==> IsDigit(s[i])
  }

  /** The value of a string of digits, most significant first. */
  function DigitsValue(s: string): nat
    requires AllDigits(s)
  {
    if s == [] then 0 else DigitsValue(s[..|s| - 1]) * 10 + (s[|s| - 1] as int - '0' as int)
  }

  /** The largest value of a 32-bit signed integer. */
  const MaxInt: nat := 0x7fff_ffff

  /** `Some(n)` exactly for a non-empty string of ASCII digits whose value fits
      a 32-bit signed integer. */
  function ParseInt(s: string): (r: Option<nat>)
    ensures r.Some? <==> s != [] && AllDigits(s) && DigitsValue(s) <= MaxInt
    ensures r.Some? ==> r.value <= MaxInt
  {
    if s != [] && AllDigits(s) && DigitsValue(s) <= MaxInt then Some(DigitsValue(s)) else None
  }

  /** The shortest decimal spelling of `n`. */
  function ToDecimal(n: nat): (s: string)
    ensures s != [] && AllDigits(s)
    ensures |s| > 1 ==> s[0] != '0'
  {
    if n < 10 then [('0' as int + n) as char]
    else ToDecimal(n / 10) + [('0' as int + n % 10) as char]
  }

  /** Printing a number and parsing it back gives the same number, as long as
      it fits 32 bits; a wider number does not parse. */
  lemma {:induction false} DecimalRoundTrip(n: nat)
    ensures ParseInt(ToDecimal(n)) == if n <= MaxInt then Some(n) else None
  {
    DigitsOfToDecimal(n);
  }

  lemma {:induction false} DigitsOfToDecimal(n: nat)
    ensures DigitsValue(ToDecimal(n)) == n
  {
    var s := ToDecimal(n);
    if n < 10 {
      assert s[..0] == [];
    } else {
      assert s[..|s| - 1] == ToDecimal(n / 10);
      DigitsOfToDecimal(n / 10);
    }
  }

  /** A leading zero does not change the value read. */
  lemma {:induction false} LeadingZeroValue(s: string)
    requires AllDigits(s)
    ensures AllDigits("0" + s) && DigitsValue("0" + s) == DigitsValue(s)
    decreases |s|
  {
    var t := "0" + s;
    assert forall i :: 0 <= i < |t| ==> t[i] == if i == 0 then '0' else s[i - 1];
    if s == [] {
      assert t[..0] == [];
    } else {
      assert t[..|t| - 1] == "0" + s[..|s| - 1];
      LeadingZeroValue(s[..|s| - 1]);
    }
  }

  /** `int.TryParse` reads a zero-padded number as the number itself. */
  lemma LeadingZero(s: string)
    requires s != [] && AllDigits(s)
    ensures ParseInt("0" + s) == ParseInt(s)
  {
    LeadingZeroValue(s);
  }

  /** Any number of leading zeros: `007` reads as 7. */
  lemma {:induction false} ZeroPadded(z: nat, n: nat)
    ensures ParseInt(seq(z, _ => '0') + ToDecimal(n)) == if n <= MaxInt then Some(n) else None
    decreases z
  {
    if z == 0 {
      assert seq(z, _ => '0') + ToDecimal(n) == ToDecimal(n);
      DecimalRoundTrip(n);
    } else {
      var rest := seq(z - 1, _ => '0') + ToDecimal(n);
      assert seq(z, _ => '0') + ToDecimal(n) == "0" + rest;
      assert AllDigits(rest);
      LeadingZero(rest);
      ZeroPadded(z - 1, n);
    }
  }
}

=== FILE: descriptor.dfy ===
/**
 The values of the `GKEYINFO` element the program writes for one script, in the
 order it writes them. Writing them as XML is left to the caller.
 */
module Descriptor {
  import opened Options
  import Keys
  import opened Decimal
  import opened Payload
  import opened Compiler

  datatype GKeyInfo = GKeyInfo(
    info: string,
    loopType: string,
    buttonFunction: string,
    buttonId: string,
    defaultDelayTime: string,
    delayType: string,
    fixMacroDelay: string,
    launchPath: string,
    loopNumber: string,
    macroName: string,
    randomDelayTime: string,
    macroInfo: string)

  /** Compiles `lines` and fills in the element values. */
  function Process(lines: seq<string>, dialect: Dialect, parseEnum: string -> Option<Keys.KeyCode>): (g: GKeyInfo)
    requires AllHandled(lines)
    ensures var m := Compile(lines, dialect, parseEnum);
      && ParseInt(g.defaultDelayTime) == Some(m.delay)
      && g.fixMacroDelay == g.defaultDelayTime
      && g.macroName == m.macroName
      && g.macroInfo == MacroInfo(m.events)
      && |Concat(m.events)| <= |g.macroInfo| && g.macroInfo[..|Concat(m.events)|] == Concat(m.events)
      && |g.macroInfo| >= MaxSize
    ensures && g.info == "LaverGKey" && g.loopType == "0" && g.buttonFunction == "48"
            && g.buttonId == "1" && g.delayType == "2" && g.launchPath == ""
            && g.loopNumber == "1" && g.randomDelayTime == "1000"
  {
    var m := Compile(lines, dialect, parseEnum);
    DecimalRoundTrip(m.delay);
    var delay := ToDecimal(m.delay);
    GKeyInfo("LaverGKey", "0", "48", "1", delay, "2", delay, "", "1", m.macroName, "1000", MacroInfo(m.events))
  }

  /** As written, both delay fields always read 15. */
  lemma ReportedDelayAsWritten(lines: seq<string>, parseEnum: string -> Option<Keys.KeyCode>)
    requires AllHandled(lines)
    ensures Process(lines, AsWritten, parseEnum).defaultDelayTime == "15"
    ensures Process(lines, AsWritten, parseEnum).fixMacroDelay == "15"
  {
    assert ToDecimal(15) == ToDecimal(1) + "5";
  }
}

=== FILE: directives.dfy ===
/**
 What each directive line does, for every compiler state: the key directives
 emit through `Emit`, `delay` appends a delay of the given or the default
 length, and `press` presses for the given or the default length. As written,
 a script that never gives a duration of its own therefore uses the initial
 default for every delay and every press.
 */
module Directives {
  import opened Options
  import Keys
  import opened Decimal
  import opened MacroItems
  import opened KeyResolver
  import opened Fields
  import opened Compiler

  /** The fields of a line written with single spaces. */
  lemma SplitOf(parts: seq<string>, line: string)
    requires forall i :: 0 <= i < |parts| ==> parts[i] != [] && NoSpace(parts[i])
    requires line == Join(parts)
    ensures Split(line) == parts
  {
    SplitJoin(parts);
  }

  /** Running a non-empty script is one step and then the rest. */
  lemma RunCons(st: State, lines: seq<string>, dialect: Dialect, parseEnum: string -> Option<Keys.KeyCode>)
    requires lines != [] && AllHandled(lines)
    ensures AllHandled(lines[1..])
    ensures Run(st, lines, dialect, parseEnum) == Run(Step(st, lines[0], dialect, parseEnum), lines[1..], dialect, parseEnum)
  {
  }

  /** A key name `k` that resolves: one field, naming a real key. */
  predicate IsKeyName(k: string, parseEnum: string -> Option<Keys.KeyCode>) {
    k != [] && NoSpace(k) && StringToKey(k, parseEnum) != Keys.None
  }

  /** `down k` and `keydown k` emit a key-down of k through the owed-delay rule. */
  lemma StepDown(st: State, kw: string, k: string, dialect: Dialect, parseEnum: string -> Option<Keys.KeyCode>)
    requires kw == "down" || kw == "keydown"
    requires IsKeyName(k, parseEnum)
    ensures Handled(kw + " " + k)
    ensures Step(st, kw + " " + k, dialect, parseEnum) == Emit(st, KeyDown(StringToKey(k, parseEnum)))
  {
    assert (kw + " " + k)[0] == kw[0];
    SplitTwo(kw, k);
  }

  /** `up k` and `keyup k` emit a key-up of k through the owed-delay rule. */
  lemma StepUp(st: State, kw: string, k: string, dialect: Dialect, parseEnum: string -> Option<Keys.KeyCode>)
    requires kw == "up" || kw == "keyup"
    requires IsKeyName(k, parseEnum)
    ensures Handled(kw + " " + k)
    ensures Step(st, kw + " " + k, dialect, parseEnum) == Emit(st, KeyUp(StringToKey(k, parseEnum)))
  {
    assert (kw + " " + k)[0] == kw[0];
    SplitTwo(kw, k);
  }

  lemma SplitTwo(a: string, b: string)
    requires a != [] && NoSpace(a) && b != [] && NoSpace(b)
    ensures Split(a + " " + b) == [a, b]
  {
    SplitWord(b);
    SplitCons(a, b);
    assert [a] + [b] == [a, b];
  }

  /** A line whose first field is `nodelay` cancels the owed delay, whatever
      fields follow, and changes nothing else. */
  lemma StepNoDelay(st: State, line: string, dialect: Dialect, parseEnum: string -> Option<Keys.KeyCode>)
    requires Handled(line) && IsNoDelayLine(line)
    ensures Step(st, line, dialect, parseEnum) == st.(haveDelay := true)
  {
  }

  /** A line that is a single key name, not a directive, presses that key for
      the current default delay, through the owed-delay rule. */
  lemma StepBareKey(st: State, k: string, dialect: Dialect, parseEnum: string -> Option<Keys.KeyCode>)
    requires IsKeyName(k, parseEnum) && !IsDirective(k)
    ensures Handled(k)
    ensures Step(st, k, dialect, parseEnum) == Emit(st, KeyPress(StringToKey(k, parseEnum), st.delay))
  {
    SplitWord(k);
  }

  /** A line with no fields changes nothing. */
  lemma StepBlank(st: State, line: string, dialect: Dialect, parseEnum: string -> Option<Keys.KeyCode>)
    requires Handled(line) && Split(line) == []
    ensures Step(st, line, dialect, parseEnum) == st
  {
  }

  /** A name line changes the name and nothing else. */
  lemma StepName(st: State, line: string, dialect: Dialect, parseEnum: string -> Option<Keys.KeyCode>)
    requires IsNameLine(line) && Handled(line)
    ensures Step(st, line, dialect, parseEnum) == st.(macroName := NameField(line))
  {
  }

  lemma DigitsHaveNoSpace(n: nat)
    ensures NoSpace(ToDecimal(n))
  {
    var arg := ToDecimal(n);
    assert forall i :: 0 <= i < |arg| ==> arg[i] != ' ' by {
      assert AllDigits(arg);
    }
  }

  // Durations

  /** `delay N` appends a delay of N ms and cancels the owed delay; a number
      past 32 bits does not parse and gives the default instead. */
  lemma StepDelay(st: State, n: nat, dialect: Dialect, parseEnum: string -> Option<Keys.KeyCode>)
    ensures Handled("delay " + ToDecimal(n))
    ensures Step(st, "delay " + ToDecimal(n), dialect, parseEnum)
         == st.(haveDelay := true, events := st.events + [Delay(if n <= MaxInt then n else st.delay)])
  {
    SplitDelayLine(n);
    DecimalRoundTrip(n);
  }

  lemma SplitDelayLine(n: nat)
    ensures Handled("delay " + ToDecimal(n))
    ensures Split("delay " + ToDecimal(n)) == ["delay", ToDecimal(n)]
  {
    var arg := ToDecimal(n);
    DigitsHaveNoSpace(n);
    assert ("delay " + arg)[0] == 'd';
    assert Join(["delay", arg]) == "delay " + arg;
    SplitOf(["delay", arg], "delay " + arg);
  }

  /** A `delay` line without exactly one argument, or whose argument does not
      parse, appends a delay of the current default length. */
  lemma StepDelayFallback(st: State, line: string, dialect: Dialect, parseEnum: string -> Option<Keys.KeyCode>)
    requires Handled(line)
    requires var parts := Split(line);
      parts != [] && parts[0] == "delay" && (|parts| != 2 || ParseInt(parts[1]) == None)
    ensures Step(st, line, dialect, parseEnum)
         == st.(haveDelay := true, events := st.events + [Delay(st.delay)])
  {
  }

  /** `press k N` and `keypress k N` press the key for N ms, after the owed
      delay if any. */
  lemma StepPressFor(st: State, kw: string, k: string, n: nat, dialect: Dialect,
                     parseEnum: string -> Option<Keys.KeyCode>)
    requires kw == "press" || kw == "keypress"
    requires IsKeyName(k, parseEnum)
    ensures Handled(kw + " " + k + " " + ToDecimal(n))
    ensures Step(st, kw + " " + k + " " + ToDecimal(n), dialect, parseEnum)
         == Emit(st, KeyPress(StringToKey(k, parseEnum), if n <= MaxInt then n else st.delay))
  {
    DigitsHaveNoSpace(n);
    assert (kw + " " + k + " " + ToDecimal(n))[0] == kw[0];
    SplitThree(kw, k, ToDecimal(n));
    DecimalRoundTrip(n);
  }

  lemma SplitThree(a: string, b: string, c: string)
    requires a != [] && NoSpace(a) && b != [] && NoSpace(b) && c != [] && NoSpace(c)
    ensures Split(a + " " + b + " " + c) == [a, b, c]
  {
    var rest := b + " " + c;
    SplitWord(c);
    SplitCons(b, c);
    SplitCons(a, rest);
    assert a + " " + b + " " + c == a + " " + rest;
    assert [a] + ([b] + [c]) == [a, b, c];
  }

  /** `press k` and `keypress k` press the key for the current default length. */
  lemma StepPressDefault(st: State, kw: string, k: string, dialect: Dialect,
                         parseEnum: string -> Option<Keys.KeyCode>)
    requires kw == "press" || kw == "keypress"
    requires IsKeyName(k, parseEnum)
    ensures Handled(kw + " " + k)
    ensures Step(st, kw + " " + k, dialect, parseEnum)
         == Emit(st, KeyPress(StringToKey(k, parseEnum), st.delay))
  {
    assert (kw + " " + k)[0] == kw[0];
    SplitTwo(kw, k);
  }

  /** A press line with a key and no duration that parses uses the current
      default length. */
  lemma StepPressFallback(st: State, line: string, dialect: Dialect, parseEnum: string -> Option<Keys.KeyCode>)
    requires Handled(line)
    requires var parts := Split(line);
      && parts != [] && (parts[0] == "press" || parts[0] == "keypress")
      && 2 <= |parts| <= 3 && StringToKey(parts[1], parseEnum) != Keys.None
      && (|parts| == 2 || ParseInt(parts[2]) == None)
    ensures Step(st, line, dialect, parseEnum)
         == Emit(st, KeyPress(StringToKey(Split(line)[1], parseEnum), st.delay))
  {
  }

  /** The event lasts `d` ms, if it has a duration at all. */
  predicate Lasts(item: MacroItem, d: nat) {
    match item
    case Delay(ms) => ms == d
    case KeyPress(_, ms) => ms == d
    case _ => true
  }

  predicate AllLast(events: seq<MacroItem>, d: nat) {
    forall i :: 0 <= i < |events| ==> Lasts(events[i], d)
  }

  /** A `delay` or `press` line that gives a duration the program accepts. */
  predicate GivesDuration(line: string) {
    var parts := Split(line);
    && parts != []
    && ((parts[0] == "delay" && |parts| == 2 && ParseInt(parts[1]).Some?)
        || ((parts[0] == "press" || parts[0] == "keypress") && |parts| == 3 && ParseInt(parts[2]).Some?))
  }

  lemma StepLastsDefault(st: State, line: string, parseEnum: string -> Option<Keys.KeyCode>)
    requires Handled(line) && !GivesDuration(line) && AllLast(st.events, st.delay)
    ensures var r := Step(st, line, AsWritten, parseEnum);
      r.delay == st.delay && AllLast(r.events, st.delay)
  {
    StepKeepsDelayAsWritten(st, line, parseEnum);
    var r := Step(st, line, AsWritten, parseEnum);
    var n := |st.events|;
    assert r.events[..n] == st.events;
    forall i | 0 <= i < |r.events|
      ensures Lasts(r.events[i], st.delay)
    {
      if i < n {
        assert r.events[i] == st.events[i];
      }
    }
  }

  lemma {:induction false} RunLastsDefault(st: State, lines: seq<string>, parseEnum: string -> Option<Keys.KeyCode>)
    requires AllHandled(lines) && AllLast(st.events, st.delay)
    requires forall i :: 0 <= i < |lines| ==> !GivesDuration(lines[i])
    ensures AllLast(Run(st, lines, AsWritten, parseEnum).events, st.delay)
    decreases |lines|
  {
    if lines != [] {
      var next := Step(st, lines[0], AsWritten, parseEnum);
      StepLastsDefault(st, lines[0], parseEnum);
      RunLastsDefault(next, lines[1..], parseEnum);
    }
  }

  /** As written, a script in which no line gives its own duration delays and
      presses for the initial 15 ms throughout. */
  lemma CompiledLastsDefault(lines: seq<string>, parseEnum: string -> Option<Keys.KeyCode>)
    requires AllHandled(lines)
    requires forall i :: 0 <= i < |lines| ==> !GivesDuration(lines[i])
    ensures AllLast(Compile(lines, AsWritten, parseEnum).events, InitialDelay)
  {
    RunLastsDefault(Start, lines, parseEnum);
  }
}

=== FILE: fields.dfy ===
/**
 Splitting a script line into fields: `Split(new[] { ' ' },
 StringSplitOptions.RemoveEmptyEntries)`. Only the space character separates;
 tabs and other white space stay inside fields.
 */
module Fields {

  predicate NoSpace(w: string) {
    forall i :: 0 <= i < |w| ==> w[i] != ' '
  }

  /** The longest space-free prefix of `s`. */
  function Word(s: string): (w: string)
    ensures |w| <= |s| && w == s[..|w|] && NoSpace(w)
    ensures |w| == |s| || s[|w|] == ' '
  {
    if s == [] || s[0] == ' ' then [] else [s[0]] + Word(s[1..])
  }

  /** The non-empty, space-free fields of `line`, in order. */
  function Split(line: string): (parts: seq<string>)
    ensures forall i :: 0 <= i < |parts| ==> parts[i] != [] && NoSpace(parts[i])
    decreases |line|
  {
    if line == [] then []
    else if line[0] == ' ' then Split(line[1..])
    else
      var w := Word(line);
      [w] + Split(line[|w|..])
  }

  /** The fields joined by single spaces. */
  function Join(parts: seq<string>): string {
    if parts == [] then ""
    else if |parts| == 1 then parts[0]
    else parts[0] + " " + Join(parts[1..])
  }

  lemma {:induction false} WordOfJoined(w: string, rest: string)
    requires w != [] && NoSpace(w) && (rest == [] || rest[0] == ' ')
    ensures Word(w + rest) == w
    decreases |w|
  {
    assert (w + rest)[1..] == w[1..] + rest;
    if |w| > 1 {
      WordOfJoined(w[1..], rest);
    } else {
      assert w[1..] + rest == rest;
    }
  }

  /** Splitting the single-space join of non-empty, space-free fields gives them back. */
  lemma {:induction false} SplitJoin(parts: seq<string>)
    requires forall i :: 0 <= i < |parts| ==> parts[i] != [] && NoSpace(parts[i])
    ensures Split(Join(parts)) == parts
    decreases |parts|
  {
    if |parts| == 1 {
      SplitWord(parts[0]);
    } else if |parts| > 1 {
      SplitCons(parts[0], Join(parts[1..]));
      SplitJoin(parts[1..]);
      assert [parts[0]] + parts[1..] == parts;
    }
  }

  lemma SplitWord(w: string)
    requires w != [] && NoSpace(w)
    ensures Split(w) == [w]
  {
    WordOfJoined(w, "");
    assert w + "" == w;
    assert w[|w|..] == [];
  }

  lemma SplitCons(w: string, tail: string)
    requires w != [] && NoSpace(w)
    ensures Split(w + " " + tail) == [w] + Split(tail)
  {
    var line := w + " " + tail;
    assert line == w + (" " + tail);
    WordOfJoined(w, " " + tail);
    assert line[|w|..] == " " + tail;
    assert (" " + tail)[1..] == tail;
  }

  /** A leading space does not change the fields. */
  lemma ExtraSpaces(s: string)
    ensures Split(" " + s) == Split(s)
  {
    assert (" " + s)[1..] == s;
  }

  /** The first field is no longer than the line, and equals it only when the
      line is that field alone. */
  lemma {:induction false} FirstFieldFits(line: string)
    requires Split(line) != []
    ensures |Split(line)[0]| <= |line|
    ensures |Split(line)[0]| == |line| ==> line == Split(line)[0]
    decreases |line|
  {
    if line[0] == ' ' {
      FirstFieldFits(line[1..]);
    }
  }
}

=== FILE: hex_format.dfy ===
/**
 Lower-case hexadecimal formatting as done by .NET's `{0:xN}` format string for
 a non-negative value: the digits of the value, left-padded with zeros to at
 least N digits and never cut to N. `HexValue` reads such a string back.
 */
module HexFormat {

  predicate IsHexDigit(c: char) {
    '0' <= c <= '9' || 'a' <= c <= 'f'
  }

  predicate IsHexString(s: string) {
    forall i :: 0 <= i < |s| ==> IsHexDigit(s[i])
  }

  function Pow16(k: nat): (p: nat)
    ensures p >= 1
  {
    if k == 0 then 1 else 16 * Pow16(k - 1)
  }

  function HexDigit(d: nat): (c: char)
    requires d < 16
    ensures IsHexDigit(c)
  {
    if d < 10 then ('0' as int + d) as char else ('a' as int + d - 10) as char
  }

  /** The value of one hex digit; other characters read as 0. */
  function DigitValue(c: char): (d: nat)
    ensures d < 16
  {
    if '0' <= c <= '9' then c as int - '0' as int
    else if 'a' <= c <= 'f' then c as int - 'a' as int + 10
    else 0
  }

  /** `n` in lower-case hex, zero-padded on the left to at least `width` digits. */
  function Hex(n: nat, width: nat): (s: string)
    ensures |s| >= 1 && |s| >= width
    decreases n, width
  {
    if n < 16 && width <= 1 then [HexDigit(n)]
    else Hex(n / 16, if width == 0 then 0 else width - 1) + [HexDigit(n % 16)]
  }

  /** The number a string of hex digits denotes, most significant digit first. */
  function HexValue(s: string): (v: nat)
    ensures v < Pow16(|s|)
  {
    if s == [] then 0 else HexValue(s[..|s| - 1]) * 16 + DigitValue(s[|s| - 1])
  }

  lemma DigitRoundTrip(d: nat)
    requires d < 16
    ensures DigitValue(HexDigit(d)) == d
  {
  }

  /** The output is lower-case hex digits only. */
  lemma {:induction false} HexDigits(n: nat, width: nat)
    ensures IsHexString(Hex(n, width))
    decreases n, width
  {
    if !(n < 16 && width <= 1) {
      HexDigits(n / 16, if width == 0 then 0 else width - 1);
    }
  }

  lemma HexConcat(a: string, b: string)
    requires IsHexString(a) && IsHexString(b)
    ensures IsHexString(a + b)
  {
    assert forall i :: 0 <= i < |a + b| ==> (a + b)[i] == if i < |a| then a[i] else b[i - |a|];
  }

  /** A value below 16^width is written with exactly `width` digits. */
  lemma {:induction false} HexLength(n: nat, width: nat)
    requires width >= 1 && n < Pow16(width)
    ensures |Hex(n, width)| == width
    decreases width
  {
    if n < 16 && width <= 1 {
    } else {
      assert width >= 2;
      assert n / 16 < Pow16(width - 1);
      HexLength(n / 16, width - 1);
    }
  }

  /** Reading the formatted digits back gives the value: the format loses nothing. */
  lemma {:induction false} HexRoundTrip(n: nat, width: nat)
    ensures HexValue(Hex(n, width)) == n
    decreases n, width
  {
    var s := Hex(n, width);
    if n < 16 && width <= 1 {
      assert s[..0] == [];
      DigitRoundTrip(n);
    } else {
      var prefix := Hex(n / 16, if width == 0 then 0 else width - 1);
      assert s[..|s| - 1] == prefix;
      HexRoundTrip(n / 16, if width == 0 then 0 else width - 1);
      DigitRoundTrip(n % 16);
    }
  }
}

=== FILE: key_resolver.dfy ===
/**
 Key names to key codes (`StringToKey`): a single letter in either case, then a
 single digit, then a fixed case-sensitive alias table, then the platform's
 own enumeration names. `Keys.None` is returned when nothing matches and tells
 the compiler to skip the line.
 */
module KeyResolver {
  import opened Options
  import Keys
  import Decimal

  type KeyCode = Keys.KeyCode

  /** The alias table: the spellings grouped by the key they name. */
  function Alias(name: string): (k: Option<KeyCode>)
    ensures k.Some? ==> k.value != Keys.None
  {
    match name
    case "`" | "~" => Some(Keys.Oemtilde)
    case "shift" => Some(Keys.ShiftKey)
    case "lshift" | "leftshift" | "left_shift" => Some(Keys.LShiftKey)
    case "rshift" | "rightshift" | "right_shift" => Some(Keys.RShiftKey)
    case "ctrl" | "control" => Some(Keys.ControlKey)
    case "lctrl" | "leftctrl" | "left_ctrl" | "lcontrol" | "leftcontrol" | "left_control" =>
      Some(Keys.LControlKey)
    case "rctrl" | "rightctrl" | "right_ctrl" | "rcontrol" | "rightcontrol" | "right_control" =>
      Some(Keys.RControlKey)
    case "alt" => Some(Keys.Menu)
    case "lalt" | "leftalt" | "left_alt" => Some(Keys.LMenu)
    case "altgr" | "ralt" | "rightalt" | "right_alt" => Some(Keys.RMenu)
    case "tilde" => Some(Keys.Oemtilde)
    case "enter" | "return" => Some(Keys.Enter)
    case "esc" | "escape" => Some(Keys.Escape)
    case "ins" | "insert" => Some(Keys.Insert)
    case "del" | "delete" => Some(Keys.Delete)
    case "bkspc" | "backspace" => Some(Keys.Back)
    case "home" => Some(Keys.Home)
    case "end" => Some(Keys.End)
    case "left" => Some(Keys.Left)
    case "right" => Some(Keys.Right)
    case "up" => Some(Keys.Up)
    case "down" => Some(Keys.Down)
    case "pgup" | "pageup" => Some(Keys.PageUp)
    case "pgdn" | "pagedown" => Some(Keys.PageDown)
    case "space" | "spacebar" | "spc" => Some(Keys.Space)
    case "." => Some(Keys.OemPeriod)
    case "," => Some(Keys.Oemcomma)
    case _ => None
  }

  predicate IsLower(c: char) { 'a' <= c <= 'z' }
  predicate IsUpper(c: char) { 'A' <= c <= 'Z' }

  /** One letter or one digit: resolved without the table or the enumeration. */
  predicate IsLetterOrDigit(name: string) {
    |name| == 1 && (IsLower(name[0]) || IsUpper(name[0]) || Decimal.IsDigit(name[0]))
  }

  /** Resolves `name`; `parseEnum` stands for the platform's name lookup. */
  function StringToKey(name: string, parseEnum: string -> Option<KeyCode>): (k: KeyCode)
    ensures k == Keys.None ==> parseEnum(name) in {None, Some(Keys.None)}
  {
    if |name| == 1 && IsLower(name[0]) then Keys.A + (name[0] as int - 'a' as int)
    else if |name| == 1 && IsUpper(name[0]) then Keys.A + (name[0] as int - 'A' as int)
    else if |name| == 1 && Decimal.IsDigit(name[0]) then Keys.D0 + (name[0] as int - '0' as int)
    else if Alias(name).Some? then Alias(name).value
    else parseEnum(name).GetOr(Keys.None)
  }

  /** A single letter resolves the same in either case, to consecutive codes from A. */
  lemma LettersCaseInsensitive(i: nat, parseEnum: string -> Option<KeyCode>)
    requires i < 26
    ensures StringToKey([('a' as int + i) as char], parseEnum) == Keys.A + i
    ensures StringToKey([('A' as int + i) as char], parseEnum) == Keys.A + i
    ensures Keys.A + 25 == Keys.Z
  {
  }

  /** The ten digits resolve to consecutive codes from D0, apart from the letters. */
  lemma DigitsContiguous(i: nat, parseEnum: string -> Option<KeyCode>)
    requires i < 10
    ensures StringToKey([('0' as int + i) as char], parseEnum) == Keys.D0 + i
    ensures Keys.D0 + i < Keys.A
    ensures Keys.D0 + 9 == Keys.D9
  {
  }

  /** No alias spelling resolves to `None`, and alias results never consult the enumeration. */
  lemma AliasesResolve(name: string, p: string -> Option<KeyCode>, q: string -> Option<KeyCode>)
    requires Alias(name).Some?
    ensures StringToKey(name, p) == StringToKey(name, q) == Alias(name).value != Keys.None
  {
  }

  /** A name is skipped exactly when it is neither a letter, a digit nor an
      alias and the enumeration does not name a key other than `None`. */
  lemma UnresolvedIff(name: string, parseEnum: string -> Option<KeyCode>)
    ensures StringToKey(name, parseEnum) == Keys.None <==>
      !IsLetterOrDigit(name) && Alias(name) == None && parseEnum(name) in {None, Some(Keys.None)}
  {
  }

  /** A name that is no letter, digit or alias resolves to whatever the
      platform lookup gives it. */
  lemma EnumResolves(name: string, parseEnum: string -> Option<KeyCode>, k: KeyCode)
    requires !IsLetterOrDigit(name) && Alias(name) == None && parseEnum(name) == Some(k)
    ensures StringToKey(name, parseEnum) == k
  {
  }

  /** A few entries of the table, as the program lists them. */
  lemma AliasSamples(parseEnum: string -> Option<KeyCode>)
    ensures StringToKey("space", parseEnum) == StringToKey("spc", parseEnum)
         == StringToKey("spacebar", parseEnum) == Keys.Space
    ensures StringToKey("altgr", parseEnum) == Keys.RMenu
    ensures StringToKey("~", parseEnum) == StringToKey("tilde", parseEnum) == Keys.Oemtilde
    ensures StringToKey("up", parseEnum) == Keys.Up && StringToKey("down", parseEnum) == Keys.Down
  {
    SpaceAliases(parseEnum);
    TildeAliases(parseEnum);
    ArrowAliases(parseEnum);
  }

  lemma SpaceAliases(parseEnum: string -> Option<KeyCode>)
    ensures StringToKey("space", parseEnum) == StringToKey("spc", parseEnum)
         == StringToKey("spacebar", parseEnum) == Keys.Space
  {
  }

  lemma TildeAliases(parseEnum: string -> Option<KeyCode>)
    ensures StringToKey("~", parseEnum) == StringToKey("tilde", parseEnum) == Keys.Oemtilde
  {
  }

  lemma ArrowAliases(parseEnum: string -> Option<KeyCode>)
    ensures StringToKey("up", parseEnum) == Keys.Up && StringToKey("down", parseEnum) == Keys.Down
  {
  }

}

=== FILE: keys.dfy ===
/**
 The subset of the platform's key enumeration (Windows virtual-key codes) that
 the macro compiler names. `None` is the sentinel "unresolved key".
 */
module Keys {

  /** A key code is one byte's worth of information. */
  type KeyCode = k: int | 0 <= k < 256

  const None: KeyCode := 0x00
  const Back: KeyCode := 0x08
  const Enter: KeyCode := 0x0D
  const ShiftKey: KeyCode := 0x10
  const ControlKey: KeyCode := 0x11
  const Menu: KeyCode := 0x12
  const Escape: KeyCode := 0x1B
  const Space: KeyCode := 0x20
  const PageUp: KeyCode := 0x21
  const PageDown: KeyCode := 0x22
  const End: KeyCode := 0x23
  const Home: KeyCode := 0x24
  const Left: KeyCode := 0x25
  const Up: KeyCode := 0x26
  const Right: KeyCode := 0x27
  const Down: KeyCode := 0x28
  const Insert: KeyCode := 0x2D
  const Delete: KeyCode := 0x2E
  const D0: KeyCode := 0x30
  const D9: KeyCode := 0x39
  const A: KeyCode := 0x41
  const Z: KeyCode := 0x5A
  const LShiftKey: KeyCode := 0xA0
  const RShiftKey: KeyCode := 0xA1
  const LControlKey: KeyCode := 0xA2
  const RControlKey: KeyCode := 0xA3
  const LMenu: KeyCode := 0xA4
  const RMenu: KeyCode := 0xA5
  const Oemcomma: KeyCode := 0xBC
  const OemPeriod: KeyCode := 0xBE
  const Oemtilde: KeyCode := 0xC0
}

=== FILE: macro_items.dfy ===
/**
 The macro events and their device opcodes. Every primitive opcode is three
 bytes written as six lower-case hex characters:
   delay     `ff` followed by the milliseconds in four digits,
   key down  the key in two digits followed by `0001`,
   key up    the key in two digits followed by `0000`;
 a key press is the down, delay and up opcodes in that order.
 */
module MacroItems {
  import opened Options
  import opened Keys
  import opened HexFormat

  datatype MacroItem =
    | Delay(ms: nat)
    | KeyDown(key: KeyCode)
    | KeyUp(key: KeyCode)
    | KeyPress(key: KeyCode, ms: nat)

  predicate IsKeyEvent(item: MacroItem) {
    !item.Delay?
  }

  /** The durations fit the four hex digits and the key is not 0xff, whose
      key-down opcode `ff0001` would read back as a one-millisecond delay. */
  predicate WellFormed(item: MacroItem) {
    match item
    case Delay(ms) => ms < 0x1_0000
    case KeyDown(k) => k < 0xff
    case KeyUp(k) => k < 0xff
    case KeyPress(k, ms) => k < 0xff && ms < 0x1_0000
  }

  function DelayCode(ms: nat): (op: string)
  {
    "ff" + Hex(ms, 4)
  }

  function KeyDownCode(k: KeyCode): (op: string)
  {
    Hex(k, 2) + "0001"
  }

  function KeyUpCode(k: KeyCode): (op: string)
  {
    Hex(k, 2) + "0000"
  }

  /** The opcodes of one event. */
  function HexCode(item: MacroItem): (op: string)
    ensures |op| >= 6 * |Primitives(item)|
  {
    match item
    case Delay(ms) => DelayCode(ms)
    case KeyDown(k) => KeyDownCode(k)
    case KeyUp(k) => KeyUpCode(k)
    case KeyPress(k, ms) => KeyDownCode(k) + DelayCode(ms) + KeyUpCode(k)
  }

  /** Every opcode text is lower-case hex digits only. */
  lemma OpcodesAreHex(item: MacroItem)
    ensures IsHexString(HexCode(item))
  {
    match item
    case Delay(ms) =>
      DelayCodeHex(ms);
    case KeyDown(k) =>
      KeyCodeHex(k, "0001");
    case KeyUp(k) =>
      KeyCodeHex(k, "0000");
    case KeyPress(k, ms) =>
      DelayCodeHex(ms);
      KeyCodeHex(k, "0001");
      KeyCodeHex(k, "0000");
      HexConcat(KeyDownCode(k), DelayCode(ms));
      HexConcat(KeyDownCode(k) + DelayCode(ms), KeyUpCode(k));
  }

  lemma DelayCodeHex(ms: nat)
    ensures IsHexString(DelayCode(ms))
  {
    HexDigits(ms, 4);
    assert IsHexString("ff");
    HexConcat("ff", Hex(ms, 4));
  }

  lemma KeyCodeHex(k: KeyCode, tail: string)
    requires tail == "0001" || tail == "0000"
    ensures IsHexString(Hex(k, 2) + tail)
  {
    HexDigits(k, 2);
    assert IsHexString(tail);
    HexConcat(Hex(k, 2), tail);
  }

  /** The primitive events an event stands for: a press is down, delay, up. */
  function Primitives(item: MacroItem): (p: seq<MacroItem>)
    ensures forall i :: 0 <= i < |p| ==> !p[i].KeyPress?
  {
    match item
    case KeyPress(k, ms) => [KeyDown(k), Delay(ms), KeyUp(k)]
    case _ => [item]
  }

  /** The fixed shape of each primitive opcode, for in-range values. */
  lemma OpcodeShapes(k: KeyCode, ms: nat)
    requires ms < 0x1_0000
    ensures var d := HexCode(Delay(ms)); |d| == 6 && d[..2] == "ff"
    ensures var d := HexCode(KeyDown(k)); |d| == 6 && d[2..] == "0001"
    ensures var u := HexCode(KeyUp(k)); |u| == 6 && u[2..] == "0000"
  {
    HexLength(ms, 4);
    HexLength(k, 2);
  }

  /** A press is exactly its three primitive opcodes: eighteen characters. */
  lemma KeyPressShape(k: KeyCode, ms: nat)
    requires ms < 0x1_0000
    ensures HexCode(KeyPress(k, ms)) == HexCode(KeyDown(k)) + HexCode(Delay(ms)) + HexCode(KeyUp(k))
    ensures |HexCode(KeyPress(k, ms))| == 18
  {
    OpcodeShapes(k, ms);
  }

  /** Well-formed events occupy a whole number of opcodes. */
  lemma CodeLength(item: MacroItem)
    requires WellFormed(item)
    ensures |HexCode(item)| == 6 * |Primitives(item)|
  {
    match item
    case Delay(ms) => OpcodeShapes(0, ms);
    case KeyDown(k) => OpcodeShapes(k, 0);
    case KeyUp(k) => OpcodeShapes(k, 0);
    case KeyPress(k, ms) => OpcodeShapes(k, ms);
  }

  lemma Hex41()
    ensures Hex(0x41, 2) == "41"
  {
    assert Hex(0x41, 2) == Hex(4, 1) + [HexDigit(1)];
    assert HexDigit(4) == '4' && HexDigit(1) == '1';
  }

  lemma Hex15()
    ensures Hex(15, 4) == "000f"
  {
    assert Hex(15, 4) == Hex(0, 3) + [HexDigit(15)];
    assert Hex(0, 3) == Hex(0, 2) + [HexDigit(0)];
    assert Hex(0, 2) == Hex(0, 1) + [HexDigit(0)];
    assert HexDigit(0) == '0' && HexDigit(15) == 'f';
  }

  /** Pressing A (0x41) for 15 ms. */
  lemma PressAExample()
    ensures HexCode(KeyPress(Keys.A, 15)) == "410001ff000f410000"
  {
    Hex41();
    Hex15();
    assert KeyDownCode(Keys.A) == "410001";
    assert DelayCode(15) == "ff000f";
    assert KeyUpCode(Keys.A) == "410000";
  }

  /** Key code 0xff cannot be told apart from a delay. */
  lemma KeyDownFFIsDelay()
    ensures HexCode(KeyDown(0xff)) == HexCode(Delay(1))
  {
    assert Hex(0xff, 2) == Hex(0xf, 1) + "f";
    assert Hex(1, 4) == Hex(0, 3) + "1";
    assert Hex(0, 3) == Hex(0, 2) + "0";
    assert Hex(0, 2) == Hex(0, 1) + "0";
  }

  /** Reads one six-character opcode back. */
  function DecodeOpcode(op: string): Option<MacroItem>
  {
    if |op| != 6 then None
    else if op[..2] == "ff" then Some(Delay(HexValue(op[2..])))
    else if op[2..] == "0001" then Some(KeyDown(HexValue(op[..2])))
    else if op[2..] == "0000" then Some(KeyUp(HexValue(op[..2])))
    else None
  }

  lemma HexFF(k: KeyCode)
    requires Hex(k, 2) == "ff"
    ensures k == 0xff
  {
    HexRoundTrip(k, 2);
    assert HexValue("ff") == 0xff by {
      assert "ff"[..1] == "f";
      assert "f"[..0] == [];
    }
  }

  /** Each well-formed primitive reads back from its opcode. */
  lemma {:induction false} DecodeOpcodeRoundTrip(item: MacroItem)
    requires WellFormed(item) && !item.KeyPress?
    ensures |HexCode(item)| == 6 && DecodeOpcode(HexCode(item)) == Some(item)
  {
    OpcodeShapes(if item.Delay? then 0 else item.key, if item.Delay? then item.ms else 0);
    var op := HexCode(item);
    match item
    case Delay(ms) =>
      assert op[2..] == Hex(ms, 4);
      HexRoundTrip(ms, 4);
    case KeyDown(k) =>
      assert op[..2] == Hex(k, 2);
      if op[..2] == "ff" { HexFF(k); }
      HexRoundTrip(k, 2);
    case KeyUp(k) =>
      assert op[..2] == Hex(k, 2);
      if op[..2] == "ff" { HexFF(k); }
      HexRoundTrip(k, 2);
  }
}

=== FILE: options.dfy ===
/** The optional value used for "parse failed" and "not found" results. */
module Options {

  datatype Option<+T> = None | Some(value: T) {

    /** The wrapped value, or `default` when there is none. */
    function GetOr(default: T): T {
      match this
      case Some(v) => v
      case None => default
    }
  }
}

=== FILE: payload.dfy ===
/**
 The macro payload (`GetMacroInfo`): the opcodes of all events in order,
 right-padded with the filler `000000` until it reaches the maximum size. A
 payload already at or past the maximum is returned whole; past the maximum it
 only raises a warning.
 */
module Payload {
  import opened Options
  import Keys
  import opened MacroItems

  /** 1360 opcodes of six characters each. */
  const MaxSize: nat := 1360 * 6

  const Filler: string := "000000"

  predicate AllWellFormed(items: seq<MacroItem>) {
    forall i :: 0 <= i < |items| ==> WellFormed(items[i])
  }

  /** The primitive events of `items`, in order. */
  function Flatten(items: seq<MacroItem>): seq<MacroItem> {
    if items == [] then [] else Flatten(items[..|items| - 1]) + Primitives(items[|items| - 1])
  }

  /** The codes of `xs` joined in order. */
  function ConcatMap<T>(xs: seq<T>, code: T -> string): string {
    if xs == [] then "" else ConcatMap(xs[..|xs| - 1], code) + code(xs[|xs| - 1])
  }

  /** The opcodes of `items`, in order. */
  function Concat(items: seq<MacroItem>): (hex: string)
    ensures hex == "" <==> items == []
  {
    ConcatMap(items, HexCode)
  }

  /** Well-formed events take six characters per primitive event. */
  lemma {:induction false} ConcatLength(items: seq<MacroItem>)
    requires AllWellFormed(items)
    ensures |Concat(items)| == 6 * |Flatten(items)|
    decreases |items|
  {
    if items != [] {
      ConcatLength(items[..|items| - 1]);
      CodeLength(items[|items| - 1]);
    }
  }

  /** The filler appended until the maximum size is reached. */
  function Pad(s: string): (r: string)
    ensures |s| <= |r| && r[..|s|] == s
    ensures forall i :: |s| <= i < |r| ==> r[i] == '0'
    ensures (|r| - |s|) % 6 == 0
    ensures |r| >= MaxSize
    ensures |r| < MaxSize + 6 || r == s
    decreases MaxSize - |s|
  {
    if |s| < MaxSize then
      var r := Pad(s + Filler);
      assert r[..|s|] == (s + Filler)[..|s|];
      r
    else s
  }

  /** The `MacroInfo` field for `items`. */
  function MacroInfo(items: seq<MacroItem>): (info: string)
    ensures var hex := Concat(items);
      && |hex| <= |info| && info[..|hex|] == hex
      && (forall i :: |hex| <= i < |info| ==> info[i] == '0')
      && |info| >= MaxSize
      && (|hex| >= MaxSize ==> info == hex)
  {
    Pad(Concat(items))
  }

  /** A whole number of opcodes that fits is padded to exactly the maximum size. */
  lemma {:induction false} PadToMax(s: string)
    requires |s| % 6 == 0 && |s| <= MaxSize
    ensures |Pad(s)| == MaxSize
    decreases MaxSize - |s|
  {
    if |s| < MaxSize {
      PadToMax(s + Filler);
    }
  }

  /** Well-formed events that fit are padded to exactly the maximum size. */
  lemma FullSizeWhenFits(items: seq<MacroItem>)
    requires AllWellFormed(items) && |Concat(items)| <= MaxSize
    ensures |MacroInfo(items)| == MaxSize
  {
    WholeOpcodes(items);
    PadToMax(Concat(items));
  }

  lemma WholeOpcodes(items: seq<MacroItem>)
    requires AllWellFormed(items)
    ensures |Concat(items)| % 6 == 0
  {
    ConcatLength(items);
    MultipleOfSix(|Concat(items)|, |Flatten(items)|);
  }

  lemma MultipleOfSix(x: int, m: int)
    requires x == 6 * m
    ensures x % 6 == 0
  {
  }

  /** Whether the maximum-size warning is printed: it looks at the padded length. */
  predicate SizeWarning(items: seq<MacroItem>) {
    |MacroInfo(items)| > MaxSize
  }

  /** Concatenation distributes over appending event lists. */
  lemma {:induction false} ConcatMapAppend<T>(a: seq<T>, b: seq<T>, code: T -> string)
    ensures ConcatMap(a + b, code) == ConcatMap(a, code) + ConcatMap(b, code)
    decreases |b|
  {
    if b == [] {
      assert a + b == a;
    } else {
      var b', last := b[..|b| - 1], b[|b| - 1];
      var ab := a + b;
      assert ab[..|ab| - 1] == a + b' && ab[|ab| - 1] == last;
      ConcatMapAppend(a, b', code);
    }
  }

  lemma ConcatAppend(a: seq<MacroItem>, b: seq<MacroItem>)
    ensures Concat(a + b) == Concat(a) + Concat(b)
  {
    ConcatMapAppend(a, b, HexCode);
  }

  /** For well-formed events the warning fires exactly when the opcodes alone
      exceed the maximum. */
  lemma SizeWarningIff(items: seq<MacroItem>)
    requires AllWellFormed(items)
    ensures SizeWarning(items) <==> |Concat(items)| > MaxSize
  {
    if |Concat(items)| <= MaxSize {
      FullSizeWhenFits(items);
    }
  }

  /** No events give the maximum size of zeros. */
  lemma EmptyPayload()
    ensures MacroInfo([]) == seq(MaxSize, _ => '0')
  {
    var info := MacroInfo([]);
    assert |Concat([])| == 0;
    assert |info| == MaxSize;
  }

  /** Reads a whole number of six-character opcodes, each with `dec`. */
  function DecodeWith(hex: string, dec: string -> Option<MacroItem>): Option<seq<MacroItem>>
    requires |hex| % 6 == 0
  {
    if hex == [] then Some([])
    else
      match DecodeWith(hex[..|hex| - 6], dec)
      case None => None
      case Some(prefix) =>
        match dec(hex[|hex| - 6..])
        case None => None
        case Some(op) => Some(prefix + [op])
  }

  /** Reads a whole number of opcodes back into primitive events. */
  function Decode(hex: string): Option<seq<MacroItem>>
    requires |hex| % 6 == 0
  {
    DecodeWith(hex, DecodeOpcode)
  }

  lemma DecodeSnoc(hex: string, op: string, item: MacroItem, prefix: seq<MacroItem>,
                   dec: string -> Option<MacroItem>)
    requires |hex| % 6 == 0 && DecodeWith(hex, dec) == Some(prefix)
    requires |op| == 6 && dec(op) == Some(item)
    ensures |hex + op| % 6 == 0
    ensures DecodeWith(hex + op, dec) == Some(prefix + [item])
  {
    var s := hex + op;
    assert s[..|s| - 6] == hex;
    assert s[|s| - 6..] == op;
  }

  lemma DecodeThree(hex: string, o1: string, o2: string, o3: string,
                    i1: MacroItem, i2: MacroItem, i3: MacroItem, prefix: seq<MacroItem>,
                    dec: string -> Option<MacroItem>)
    requires |hex| % 6 == 0 && DecodeWith(hex, dec) == Some(prefix)
    requires |o1| == 6 && dec(o1) == Some(i1)
    requires |o2| == 6 && dec(o2) == Some(i2)
    requires |o3| == 6 && dec(o3) == Some(i3)
    ensures |hex + (o1 + o2 + o3)| % 6 == 0
    ensures DecodeWith(hex + (o1 + o2 + o3), dec) == Some(prefix + [i1, i2, i3])
  {
    DecodeSnoc(hex, o1, i1, prefix, dec);
    DecodeSnoc(hex + o1, o2, i2, prefix + [i1], dec);
    DecodeSnoc(hex + o1 + o2, o3, i3, prefix + [i1] + [i2], dec);
    assert hex + o1 + o2 + o3 == hex + (o1 + o2 + o3);
    assert prefix + [i1] + [i2] + [i3] == prefix + [i1, i2, i3];
  }

  lemma DecodeSnocPress(hex: string, k: Keys.KeyCode, ms: nat, prefix: seq<MacroItem>)
    requires |hex| % 6 == 0 && Decode(hex) == Some(prefix)
    requires WellFormed(KeyPress(k, ms))
    ensures |hex + HexCode(KeyPress(k, ms))| % 6 == 0
    ensures Decode(hex + HexCode(KeyPress(k, ms))) == Some(prefix + Primitives(KeyPress(k, ms)))
  {
    KeyPressShape(k, ms);
    DecodeOpcodeRoundTrip(KeyDown(k));
    DecodeOpcodeRoundTrip(Delay(ms));
    DecodeOpcodeRoundTrip(KeyUp(k));
    DecodeThree(hex, HexCode(KeyDown(k)), HexCode(Delay(ms)), HexCode(KeyUp(k)),
                KeyDown(k), Delay(ms), KeyUp(k), prefix, DecodeOpcode);
  }

  /** The payload's opcodes read back as the events' primitives. */
  lemma {:induction false} DecodeConcat(items: seq<MacroItem>)
    requires AllWellFormed(items)
    ensures |Concat(items)| % 6 == 0 && Decode(Concat(items)) == Some(Flatten(items))
    decreases |items|
  {
    ConcatLength(items);
    if items != [] {
      var init := items[..|items| - 1];
      var last := items[|items| - 1];
      assert AllWellFormed(init);
      DecodeConcat(init);
      var hex := Concat(init);
      var flat := Flatten(init);
      assert Concat(items) == hex + HexCode(last);
      assert Flatten(items) == flat + Primitives(last);
      if last.KeyPress? {
        DecodeSnocPress(hex, last.key, last.ms, flat);
      } else {
        DecodeOpcodeRoundTrip(last);
        DecodeSnoc(hex, HexCode(last), last, flat, DecodeOpcode);
      }
    }
  }
}
